=== FILE: README.md ===
# Safegraphle game engine in Dafny

Safegraphle is a daily Wordle-style guessing game over brands of points of
interest (POIs). The player has six guesses to find the day's answer brand.
Each guess is graded on three signals:

- NAICS code: green for the same code, yellow for the same four-character
  industry group, white otherwise.
- State coverage: green when the guess covers all of the answer's states,
  yellow when it covers more than half, white otherwise.
- Number of POIs: green when equal, a down arrow when the guess is too high,
  an up arrow when it is too low.

The game also keeps a shareable summary. It has a header line naming the
puzzle, then one line of three glyphs per guess.

This project models the engine of `safegraphle.py` as pure Dafny functions
and proves properties about them:

- `catalog.dfy` (module `Catalog`): brand records, and the row filter of the
  brand query.
  - The filter requires more than 250 POIs, 3 to 25 states, and NAICS group
    7225 or 4451.
  - Lookup by name returns the first row with that name.
- `evaluator.dfy` (module `Evaluator`): the three checks of the `Guess`
  class.
  - They are related to independent descriptions: character-wise code
    agreement, set containment, and the real-valued state fraction that the
    source computes.
- `summary.dfy` (module `Summary`): the summary text, with the exact emoji
  code points. Parsers read a header or line back, which gives round-trip
  lemmas.
- `decimal.dfy` (module `Decimal`): decimal rendering of the puzzle number and
  its inverse.
- `ledger.dfy` (module `Ledger`): the per-player session.
  - The initial state.
  - One press of the GUESS button (`Step`, and `Submit` by brand name).
  - The win/loss announcement.
  - Runs of several guesses (`Play`).
  - The ledger invariant `Valid`: the summary is always the header plus one
    line per recorded guess.
- `schedule.dfy` (module `Schedule`): the 91-day hand-entered answer table.
  Weekdays get fresh answers, and Saturday and Sunday repeat Friday's answer.
- `selector.dfy` (module `Selector`): the choice of the answer row.
  - Daily mode takes the whole number of days since 2022-03-28, with Python's
    indexing, including negative positions.
  - Random mode takes a draw `u` in [0, 1).
- `reals.dfy` (module `Reals`) and `wrappers.dfy` (module `Wrappers`) are
  helpers: facts about scaling real numbers, and `Option`/`Result`.

The current date and the random draw are parameters. The model does not read
a clock or a random source.

In three places the code behaves differently from what a player might expect;
the model follows the code:

- Winning does not end the game. The GUESS button's disabled flag depends
  only on the guess count, so a won session keeps accepting guesses while the
  count is below six (`Ledger.GuessAfterWin`).
- Green state feedback compares the overlap with the answer's separately
  counted `num_states`, not with the answer's state list. The two readings
  agree on rows where the count is the size of the list, which holds for every
  row the query returns (`Evaluator.StatesAllIffCovers`).
- The source has no error path for an unknown brand name. The name comes from
  a select box over the catalog. `Ledger.Submit` still returns an
  `UnknownBrand` error for a name outside the catalog, because the row lookup
  would be empty there.

## Model

| member | source | states |
|---|---|---|
| `Catalog.IndustryGroup` | safegraphle.py:149 | the industry group is the first four characters of the code, or the whole code when it is shorter |
| `Catalog.FirstNamed` | safegraphle.py:178 | the position found holds the name, no earlier row holds it, and none is found exactly when no row has the name |
| `Catalog.Eligible` | safegraphle.py:57-59 | a brand passes the query filter exactly when it has more than 250 POIs, 3 to 25 states, and a code starting with 7225 or 4451 |
| `Catalog.Lookup` | safegraphle.py:178 | a row is found exactly when some catalog row has the name, and the row found is the first catalog row with that name |
| `Catalog.LookupUnique` | safegraphle.py:178 | with unique names, looking up a row's name gives that row |
| `Evaluator.CheckNaics` | safegraphle.py:145-152 | green exactly for equal codes, yellow exactly for different codes in the same group, white exactly for different groups |
| `Evaluator.NaicsGroupCharwise` | safegraphle.py:149 | for codes of four or more characters, the signal is not white exactly when the first four characters agree one by one |
| `Evaluator.NaicsSymmetric` | safegraphle.py:145-152 | swapping guess and answer does not change the NAICS signal |
| `Evaluator.EligibleNaicsOff` | safegraphle.py:145-152 | between two rows that pass the query filter, white means one is a restaurant (7225) and the other a grocery store (4451) |
| `Evaluator.CheckNumPois` | safegraphle.py:154-161 | green exactly for equal counts, down arrow exactly when the guess has more POIs, up arrow exactly when it has fewer |
| `Evaluator.PoisAntisymmetric` | safegraphle.py:154-161 | swapping guess and answer swaps too high with too low and keeps equal |
| `Evaluator.Overlap` | safegraphle.py:164 | the number of shared states is at most the size of either state set |
| `Evaluator.CheckStates` | safegraphle.py:163-171 | green exactly when the overlap equals the answer's state count, yellow exactly when it is otherwise more than half of it, white otherwise |
| `Evaluator.StatesMatchesFraction` | safegraphle.py:165-171 | the three state signals are the buckets of the real fraction overlap / count: equal to 1, above 1/2, and the rest |
| `Evaluator.RatioBuckets` | safegraphle.py:165-170 | for natural numbers, o / n equals 1 exactly when o = n, and exceeds 1/2 exactly when 2o > n |
| `Evaluator.StatesAllIffCovers` | safegraphle.py:163-171 | on a row whose count is the size of its state set, green means the guess covers every state of the answer, and conversely |
| `Evaluator.OverlapMonotone` | safegraphle.py:164 | a guess covering more states shares at least as many with the answer |
| `Evaluator.StatesMonotone` | safegraphle.py:163-171 | covering more states never lowers the state signal |
| `Evaluator.Evaluate` | safegraphle.py:145-179 | each of the report's three signals takes each of its three values under exactly the condition of the matching check: equal code, same group, other group; all states, more than half, the rest; equal, more, fewer POIs |
| `Evaluator.SelfAllGreen` | safegraphle.py:145-171 | the answer graded against itself is green on all three signals |
| `Evaluator.ExampleGuess` | safegraphle.py:145-171 | a same-group guess with 2 of the answer's 3 states and fewer POIs gets yellow, yellow, up arrow |
| `Summary.NaicsGlyph` | safegraphle.py:147-152 | a NAICS glyph is one character and not a newline |
| `Summary.StatesGlyph` | safegraphle.py:166-171 | a state glyph is one character and not a newline |
| `Summary.PoisGlyph` | safegraphle.py:156-161 | a POI glyph is one or two characters (an arrow carries a variation selector) with no newline |
| `Summary.Line` | safegraphle.py:187 | a summary line is 6 or 7 characters: glyph, space, glyph, space, glyph, then a newline at the end |
| `Summary.LineHasOneNewline` | safegraphle.py:187 | each summary line ends in a newline and holds no other |
| `Summary.DecodeLineRoundTrip` | safegraphle.py:187 | a summary line reads back as the three signals it was written from |
| `Summary.NaicsGlyphRoundTrip` | safegraphle.py:147-152 | each NAICS glyph reads back as its signal |
| `Summary.StatesGlyphRoundTrip` | safegraphle.py:166-171 | each state glyph reads back as its signal |
| `Summary.PoisGlyphRoundTrip` | safegraphle.py:156-161 | each POI glyph reads back as its signal |
| `Summary.Header` | safegraphle.py:128 | the header starts with the title "SAFEGRAPHLE #", has more after it, and ends in a newline |
| `Summary.HeaderHasOneNewline` | safegraphle.py:128 | the header is a single line |
| `Summary.DecodeHeaderRoundTrip` | safegraphle.py:128 | the header reads back as the puzzle index it names |
| `Summary.Body` | safegraphle.py:187 | the guess lines are empty exactly when there are no guesses, and otherwise end in a newline |
| `Summary.BodyLineCount` | safegraphle.py:187 | the guess lines hold one newline per guess |
| `Decimal.FromNat` | safegraphle.py:128 | the puzzle number is written as a non-empty run of digits, with a leading zero only for 0 |
| `Decimal.ToNatFromNat` | safegraphle.py:128 | reading the written number back gives the number |
| `Decimal.FromNatInjective` | safegraphle.py:128 | different puzzle numbers are written differently |
| `Ledger.Init` | safegraphle.py:122-128 | a new session is empty, has count 0, has a header naming its puzzle, and satisfies the ledger invariant |
| `Ledger.Announce` | safegraphle.py:190-194 | a win exactly when the guessed name is the answer's, carrying the count; otherwise a loss exactly when the count has reached six |
| `Ledger.Step` | safegraphle.py:180-194 | a guess raises the count by one and appends one row to each column and one line to the summary; its announcement is the one for the new count, a win carrying the new count exactly when the names agree, and a loss exactly on a sixth miss |
| `Ledger.StepAddsOneLine` | safegraphle.py:187 | the old summary is kept as a prefix, and the one new line reads back as the guess's signals |
| `Ledger.StepKeepsValid` | safegraphle.py:176-187 | a guess keeps the ledger invariant |
| `Ledger.SummaryLineCount` | safegraphle.py:122-187 | in a valid session the summary has one line per guess plus the header |
| `Ledger.Announcements` | safegraphle.py:190-194 | a run of guesses has one announcement per guess |
| `Ledger.Play` | safegraphle.py:176-194 | a run of guesses keeps the puzzle, adds its length to the count, records the names in order, makes the announcements of the run with the counts each guess brings, and keeps the invariant |
| `Ledger.AnnouncementsOutcomes` | safegraphle.py:190-194 | in a run's announcements, each guess wins exactly when it names the answer, and a miss loses exactly once its count reaches six |
| `Ledger.PlayOutcomes` | safegraphle.py:176-194 | in a run, each guess wins exactly when it names the answer, and a miss loses exactly when it is the sixth guess |
| `Ledger.MissesAnnounced` | safegraphle.py:190-196 | a run of misses ending at the sixth guess announces nothing until its last guess, which is a loss |
| `Ledger.SixMissesLose` | safegraphle.py:176-196 | six misses from a fresh session announce nothing five times, then a loss |
| `Ledger.WinOnLastGuess` | safegraphle.py:190-193 | naming the answer with the sixth guess is a win in six, not a loss |
| `Ledger.GuessAfterWin` | safegraphle.py:176-191 | a won session with guesses left accepts another guess, which counts |
| `Ledger.Submit` | safegraphle.py:176-194 | refused exactly when six guesses have been made, or (otherwise) when no row has the name; an accepted guess keeps the puzzle, counts, records the name, adds to the NAICS, STATES and POIS columns the first named row's code, states and POI count with their signals, adds the summary line of the first row with that name graded against the answer, keeps the invariant, wins exactly when it names the answer, and loses exactly when it is a sixth miss |
| `Schedule.ScheduleRange` | safegraphle.py:76-89 | the table covers 91 days and every entry is one of catalog rows 0 to 64 |
| `Schedule.WeekendRepeat` | safegraphle.py:75-89 | in every week the Saturday and Sunday answers repeat the Friday answer |
| `Schedule.DailyIndex` | safegraphle.py:98 | the day's answer is the table entry for that day, and is one of rows 0 to 64 |
| `Schedule.EveryBrandScheduled` | safegraphle.py:69-89 | each of rows 0 to 64 is the answer on some weekday of the table |
| `Schedule.LaunchWeek` | safegraphle.py:70-77 | the table opens with the five hand-picked launch answers 18, 42, 0, 51, 6 |
| `Selector.PyIndex` | safegraphle.py:98 | a position is valid exactly in [-length, length); a negative one counts from the end |
| `Selector.Round` | safegraphle.py:96 | rounding lands within one half of the number, and a tie goes to the even neighbour |
| `Selector.RandomIndexAsWritten` | safegraphle.py:96 | the random index as written lies in [0, size], with size itself included |
| `Selector.RoundWithin` | safegraphle.py:96 | rounding a number in [0, m] stays in [0, m] |
| `Selector.RandomIndexCanOverflow` | safegraphle.py:96 | with 65 rows, the draw 0.999 gives index 65, one past the last row |
| `Selector.RandomIndex` | safegraphle.py:96 | the corrected random index is always a row of a non-empty catalog |
| `Selector.SelectAnswer` | safegraphle.py:94-99 | any answer is a catalog row; daily mode has none outside days [-91, 91), on a day in the table has one exactly when the scheduled entry is a catalog row, and then it is that entry (one of rows 0 to 64); with at least 65 rows it has one exactly for days in [-91, 91); random mode has one exactly for a non-empty catalog |
| `Selector.EarlyDayWrapsAround` | safegraphle.py:92-99 | with at least 65 rows, a day shortly before the first puzzle takes the answer of the day 91 days later |

## Left out

- The Streamlit page is not modelled: the map, the table display, the select
  box and the caching decorators are user interface.
- The Snowflake queries are not modelled. The catalog is a parameter, and the
  brand query's row filter is stated only as `Catalog.Eligible`. The query's
  ordering and the POI-location query are left out.
- Parsing the `STATES` column with Python's `eval` is left out. A brand's
  states are given as a set.
- The clock is left out. The elapsed day count is an integer parameter of
  `Selector.SelectAnswer`, standing for the whole days since 2022-03-28 as
  `timedelta.days` rounds them (down).
- The random draw is left out as a source. It is a real parameter in [0, 1),
  and floating-point rounding of the product is not modelled.
- The state fraction is modelled in exact real arithmetic. For counts of this
  size the float comparisons with 1 and 0.5 give the same answers.
- The text of the table cells, the guessed code, states list and POI count
  followed by a glyph, is stored as structured entries. Python's rendering of
  a list with `str` is not modelled.
- The win and loss messages and the display of the summary and answer name
  are printed output. Only the announcement (`Ledger.Outcome`) is modelled.
- `Evaluator.CheckStates` requires a positive answer state count. At 0 the
  source divides by zero, which gives inf or nan (the count is a numpy
  integer), not an exception. Every catalog row has at least 3 states.
- `Ledger.Step` requires fewer than six guesses, and `Ledger.Submit`
  refuses a press at six or more with the `GuessLimitReached` error. This
  treats the button's disabled flag as a guard checked on every press. In
  the source the flag is computed before the press is recorded in the same
  page run, so it lags one run behind the count. The button drawn by the run
  that records the sixth guess is still enabled, and whether a further press
  then records a seventh guess depends on the UI framework, which is not
  modelled.
- `Ledger.Submit` requires the answer index to be a catalog row. The source's
  answer lookup fails before any guess is possible otherwise.
- `Schedule.DailyIndex`: the claim that the 65 weekday entries are pairwise
  distinct is not proved. Only coverage of rows 0 to 64 is
  (`Schedule.EveryBrandScheduled`), which together with 65 weekdays implies
  it.
- `Selector.SelectAnswer`: the random branch uses the corrected index
  `Selector.RandomIndex` (rounded down), not the source's rounding to nearest
  (see Findings). Where the source's index is the catalog size, the source
  fails at the row lookup but the model picks the last row. On a half-way tie,
  such as 45.5, the source takes the even neighbour and the model the lower
  one. `Selector.RandomIndexAsWritten` keeps the code as written.
- Whether the live catalog has at least 65 rows depends on the data. The
  catalog size is a parameter, and `Selector.SelectAnswer` has no answer
  when the scheduled entry is not a row; the row labels are taken to be the
  positions 0 to size - 1 that `pd.read_sql` assigns.

## Findings

| source | as written | input that shows it | evidently intended | confidence | as-written member | corrected member |
|---|---|---|---|---|---|---|
| safegraphle.py:96 | random mode rounds the draw times the catalog size to the nearest integer, so it can produce the size itself | a draw of 0.999 with 65 rows gives 64.935, which rounds to 65, and row 65 does not exist | an index in [0, size), for example by rounding down | high; not executed | `Selector.RandomIndexCanOverflow` | `Selector.RandomIndex` |

=== FILE: catalog.dfy ===
/** The brand records the game is played over: one row of the brand summary
    query, with the `states` list already parsed into a set. */
module Catalog {
  import opened Wrappers

  /** One brand: its name (the catalog key), NAICS code, number of POIs,
      the distinct states it has POIs in, and the separately counted
      number of distinct states. */
  datatype Brand = Brand(
    name: string,
    naics: string,
    pois: int,
    states: set<string>,
    numStates: nat)

  function Min(a: nat, b: nat): nat {
    if a <= b then a else b
  }

  /** The first four characters of a NAICS code (the industry group), or the
      whole code when it is shorter, as Python's `code[0:4]` gives. */
  function IndustryGroup(code: string): (g: string)
    ensures |g| <= 4 && g <= code
    ensures |code| >= 4 ==> |g| == 4
    ensures |code| < 4 ==> g == code
  {
    code[..Min(4, |code|)]
  }

  const Restaurants: string := "7225"
  const Groceries: string := "4451"

  /** `s` begins with `p`. */
  predicate StartsWith(s: string, p: string) {
    |p| <= |s| && s[..|p|] == p
  }

  /** The row filter of the brand summary query: more than 250 POIs, between
      3 and 25 states inclusive, and a code starting with 7225 or 4451. */
  predicate Eligible(b: Brand): (ok: bool)
    ensures ok <==> && b.pois > 250
                    && 3 <= b.numStates <= 25
                    && (StartsWith(b.naics, Restaurants) || StartsWith(b.naics, Groceries))
  {
    && b.pois > 250
    && 3 <= b.numStates <= 25
    && (IndustryGroup(b.naics) == Restaurants || IndustryGroup(b.naics) == Groceries)
  }

  /** `num_states` and `states` both aggregate the distinct regions of the
      brand, so they agree on every catalog row. */
  predicate StatesCounted(b: Brand) {
    b.numStates == |b.states|
  }

  /** Position of the first row named `name`; a lookup by name keeps the
      first of the matching rows. */
  function FirstNamed(catalog: seq<Brand>, name: string): (r: Option<nat>)
    ensures r.Some? ==> r.value < |catalog| && catalog[r.value].name == name
    ensures r.Some? ==> forall j :: 0 <= j < r.value ==> catalog[j].name != name
    ensures r.None? <==> forall j :: 0 <= j < |catalog| ==> catalog[j].name != name
  {
    if |catalog| == 0 then None
    else if catalog[0].name == name then Some(0)
    else match FirstNamed(catalog[1..], name)
      case None => None
      case Some(k) => Some(k + 1)
  }

  /** The record a guessed name selects, if the name is in the catalog. */
  function Lookup(catalog: seq<Brand>, name: string): (r: Option<Brand>)
    ensures r.Some? <==> exists j :: 0 <= j < |catalog| && catalog[j].name == name
    ensures r.Some? ==> r.value in catalog && r.value.name == name
    ensures r.Some? ==>
              exists k :: && 0 <= k < |catalog| && r.value == catalog[k]
                          && forall j :: 0 <= j < k ==> catalog[j].name != name
  {
    match FirstNamed(catalog, name)
    case None => None
    case Some(k) => Some(catalog[k])
  }

  /** When names are unique, the lookup returns the one row with that name. */
  lemma LookupUnique(catalog: seq<Brand>, j: nat)
    requires j < |catalog|
    requires forall i, k :: 0 <= i < k < |catalog| ==> catalog[i].name != catalog[k].name
    ensures Lookup(catalog, catalog[j].name) == Some(catalog[j])
  {
    var r := FirstNamed(catalog, catalog[j].name);
    assert r.Some?;
  }
}

=== FILE: decimal.dfy ===
/** Decimal rendering of natural numbers, as Python's f-string `{n}` produces
    for a non-negative int, and its inverse. */
module Decimal {

  predicate IsDigit(c: char) {
    '0' <= c <= '9'
  }

  predicate AllDigits(s: string) {
    forall i :: 0 <= i < |s| ==> IsDigit(s[i])
  }

  function DigitValue(c: char): (d: nat)
    requires IsDigit(c)
    ensures d < 10
  {
    (c as int) - ('0' as int)
  }

  function DigitChar(d: nat): (c: char)
    requires d < 10
    ensures IsDigit(c) && DigitValue(c) == d
  {
    (('0' as int) + d) as char
  }

  /** The canonical decimal numeral of `n`: no sign, no leading zeros. */
  function FromNat(n: nat): (s: string)
    ensures |s| > 0 && AllDigits(s)
    ensures s[0] == '0' <==> n == 0
    ensures |s| == 1 <==> n < 10
  {
    if n < 10 then [DigitChar(n)] else FromNat(n / 10) + [DigitChar(n % 10)]
  }

  /** The value of a numeral; the empty numeral reads as 0. */
  function ToNat(s: string): nat
    requires AllDigits(s)
  {
    if |s| == 0 then 0 else ToNat(s[..|s| - 1]) * 10 + DigitValue(s[|s| - 1])
  }

  /** Reading back a rendered number gives the number. */
  lemma {:induction false} ToNatFromNat(n: nat)
    ensures ToNat(FromNat(n)) == n
  {
    var s := FromNat(n);
    if n >= 10 {
      ToNatFromNat(n / 10);
      assert s[..|s| - 1] == FromNat(n / 10);
    }
  }

  /** Distinct numbers render as distinct numerals. */
  lemma FromNatInjective(m: nat, n: nat)
    ensures FromNat(m) == FromNat(n) ==> m == n
  {
    ToNatFromNat(m);
    ToNatFromNat(n);
  }
}

=== FILE: evaluator.dfy ===
/** The guess evaluator: compares a guessed brand with the answer brand on
    NAICS code, number of POIs and state coverage. */
module Evaluator {
  import opened Catalog
  import opened Reals

  /** NAICS feedback: green (same code), yellow (same first four
      characters), white (different industry group). */
  datatype NaicsFeedback = NaicsExact | NaicsSameGroup | NaicsOff

  /** POI feedback: green (same count), down arrow (guess too high),
      up arrow (guess too low). */
  datatype PoisFeedback = PoisExact | PoisTooHigh | PoisTooLow

  /** State feedback: green (all of the answer's states), yellow (more than
      half), white (half or fewer). */
  datatype StatesFeedback = StatesAll | StatesMajority | StatesOff

  function CheckNaics(g: Brand, a: Brand): (r: NaicsFeedback)
    ensures r == NaicsExact <==> g.naics == a.naics
    ensures r == NaicsSameGroup <==>
              g.naics != a.naics && IndustryGroup(g.naics) == IndustryGroup(a.naics)
    ensures r == NaicsOff <==> IndustryGroup(g.naics) != IndustryGroup(a.naics)
  {
    if g.naics == a.naics then NaicsExact
    else if IndustryGroup(g.naics) == IndustryGroup(a.naics) then NaicsSameGroup
    else NaicsOff
  }

  function CheckNumPois(g: Brand, a: Brand): (r: PoisFeedback)
    ensures r == PoisExact <==> g.pois == a.pois
    ensures r == PoisTooHigh <==> g.pois > a.pois
    ensures r == PoisTooLow <==> g.pois < a.pois
  {
    var diff := g.pois - a.pois;
    if diff == 0 then PoisExact
    else if diff > 0 then PoisTooHigh
    else PoisTooLow
  }

  /** Number of the answer's states that the guess also covers. */
  function Overlap(g: Brand, a: Brand): (n: nat)
    ensures n <= |a.states| && n <= |g.states|
  {
    SubsetSize(g.states * a.states, a.states);
    SubsetSize(g.states * a.states, g.states);
    |g.states * a.states|
  }

  /** A subset of a finite set is no larger than the set. */
  lemma SubsetSize<T>(x: set<T>, y: set<T>)
    requires x <= y
    ensures |x| <= |y|
    ensures |x| == |y| ==> x == y
  {
    assert y == x + (y - x);
    assert |y - x| == |y| - |x|;
    if |x| == |y| {
      assert y - x == {};
    }
  }

  /** The source compares the ratio overlap / num_states with 1 and 0.5;
      with a positive denominator these are the integer comparisons below. */
  function CheckStates(g: Brand, a: Brand): (r: StatesFeedback)
    requires a.numStates > 0
    ensures r == StatesAll <==> Overlap(g, a) == a.numStates
    ensures r == StatesMajority <==>
              Overlap(g, a) != a.numStates && 2 * Overlap(g, a) > a.numStates
    ensures r == StatesOff <==>
              Overlap(g, a) != a.numStates && 2 * Overlap(g, a) <= a.numStates
  {
    var overlap := Overlap(g, a);
    if overlap == a.numStates then StatesAll
    else if 2 * overlap > a.numStates then StatesMajority
    else StatesOff
  }

  /** The three signals of one guess, in summary order NAICS, STATES, POIS. */
  datatype Report = Report(naics: NaicsFeedback, states: StatesFeedback, pois: PoisFeedback)

  function Evaluate(g: Brand, a: Brand): (r: Report)
    requires a.numStates > 0
    ensures r.naics == NaicsExact <==> g.naics == a.naics
    ensures r.naics == NaicsSameGroup <==>
              g.naics != a.naics && IndustryGroup(g.naics) == IndustryGroup(a.naics)
    ensures r.naics == NaicsOff <==> IndustryGroup(g.naics) != IndustryGroup(a.naics)
    ensures r.states == StatesAll <==> Overlap(g, a) == a.numStates
    ensures r.states == StatesMajority <==>
              Overlap(g, a) != a.numStates && 2 * Overlap(g, a) > a.numStates
    ensures r.states == StatesOff <==>
              Overlap(g, a) != a.numStates && 2 * Overlap(g, a) <= a.numStates
    ensures r.pois == PoisExact <==> g.pois == a.pois
    ensures r.pois == PoisTooHigh <==> g.pois > a.pois
    ensures r.pois == PoisTooLow <==> g.pois < a.pois
  {
    Report(CheckNaics(g, a), CheckStates(g, a), CheckNumPois(g, a))
  }

  // ---------------------------------------------------------------------
  // Properties relating the signals to independent descriptions.
  // ---------------------------------------------------------------------

  /** The state rule read over the reals, as the source's true division
      computes it: green when the fraction is 1, yellow when it exceeds 1/2. */
  lemma StatesMatchesFraction(g: Brand, a: Brand)
    requires a.numStates > 0
    ensures var frac := (Overlap(g, a) as real) / (a.numStates as real);
            && (CheckStates(g, a) == StatesAll <==> frac == 1.0)
            && (CheckStates(g, a) == StatesMajority <==> frac != 1.0 && frac > 0.5)
            && (CheckStates(g, a) == StatesOff <==> frac != 1.0 && frac <= 0.5)
  {
    RatioBuckets(Overlap(g, a), a.numStates);
  }

  /** The ratio o / n of naturals, n positive, is 1 exactly when o == n and
      exceeds one half exactly when 2 * o > n. */
  lemma RatioBuckets(o: nat, n: nat)
    requires n > 0
    ensures (o as real) / (n as real) == 1.0 <==> o == n
    ensures (o as real) / (n as real) > 0.5 <==> 2 * o > n
  {
    var r, m := o as real, n as real;
    assert (r / m) * m == r;
    Buckets(r / m, r, m);
    assert (2 * o) as real == 2.0 * r;
  }

  /** A quotient frac == r / m, m positive, is 1 exactly when r == m and
      exceeds one half exactly when 2r > m. */
  lemma Buckets(frac: real, r: real, m: real)
    requires m > 0.0 && frac * m == r
    ensures frac == 1.0 <==> r == m
    ensures frac > 0.5 <==> 2.0 * r > m
  {
    ScaleCompare(frac, 1.0, m);
    ScaleCompare(2.0 * frac, 1.0, m);
    assert (2.0 * frac) * m == 2.0 * (frac * m);
  }

  /** For NAICS codes of at least four characters, the code is not off iff
      the first four characters agree one by one. */
  lemma NaicsGroupCharwise(g: Brand, a: Brand)
    requires |g.naics| >= 4 && |a.naics| >= 4
    ensures CheckNaics(g, a) != NaicsOff <==>
              forall i :: 0 <= i < 4 ==> g.naics[i] == a.naics[i]
  {
    var gg, ag := IndustryGroup(g.naics), IndustryGroup(a.naics);
    if forall i :: 0 <= i < 4 ==> g.naics[i] == a.naics[i] {
      assert forall i :: 0 <= i < 4 ==> gg[i] == ag[i];
      assert gg == ag;
    }
    if gg == ag {
      assert forall i :: 0 <= i < 4 ==> g.naics[i] == gg[i] == ag[i] == a.naics[i];
    }
  }

  /** Swapping guess and answer gives the same NAICS feedback. */
  lemma NaicsSymmetric(g: Brand, a: Brand)
    ensures CheckNaics(g, a) == CheckNaics(a, g)
  {
  }

  /** Swapping guess and answer swaps "too high" and "too low". */
  lemma PoisAntisymmetric(g: Brand, a: Brand)
    ensures CheckNumPois(g, a) == PoisTooHigh <==> CheckNumPois(a, g) == PoisTooLow
    ensures CheckNumPois(g, a) == PoisExact <==> CheckNumPois(a, g) == PoisExact
  {
  }

  /** Between two catalog brands, white NAICS feedback means exactly that one
      is a restaurant and the other a grocery store. */
  lemma EligibleNaicsOff(g: Brand, a: Brand)
    requires Eligible(g) && Eligible(a)
    ensures CheckNaics(g, a) == NaicsOff <==>
              {IndustryGroup(g.naics), IndustryGroup(a.naics)} == {Restaurants, Groceries}
  {
    var gg, ag := IndustryGroup(g.naics), IndustryGroup(a.naics);
    if gg != ag {
      assert {gg, ag} == {Restaurants, Groceries};
    } else {
      assert Restaurants != Groceries;
      assert Restaurants in {Restaurants, Groceries} && Groceries in {Restaurants, Groceries};
    }
  }

  /** When the answer's count is the size of its state set (true of every
      catalog row), green state feedback means the guess covers every state
      of the answer. */
  lemma StatesAllIffCovers(g: Brand, a: Brand)
    requires StatesCounted(a) && a.numStates > 0
    ensures CheckStates(g, a) == StatesAll <==> a.states <= g.states
  {
    if CheckStates(g, a) == StatesAll {
      SubsetSize(g.states * a.states, a.states);
    } else {
      assert g.states * a.states != a.states;
    }
  }

  /** Rank of a state signal: more covered states, higher rank. */
  function StatesRank(f: StatesFeedback): nat {
    match f
    case StatesOff => 0
    case StatesMajority => 1
    case StatesAll => 2
  }

  lemma OverlapMonotone(g: Brand, g': Brand, a: Brand)
    requires g.states <= g'.states
    ensures Overlap(g, a) <= Overlap(g', a)
  {
    SubsetSize(g.states * a.states, g'.states * a.states);
  }

  /** Guessing a brand that covers more states never worsens the state
      feedback against a catalog answer. */
  lemma StatesMonotone(g: Brand, g': Brand, a: Brand)
    requires StatesCounted(a) && a.numStates > 0
    requires g.states <= g'.states
    ensures StatesRank(CheckStates(g, a)) <= StatesRank(CheckStates(g', a))
  {
    OverlapMonotone(g, g', a);
  }

  /** The answer evaluated against itself is green on all three signals. */
  lemma SelfAllGreen(a: Brand)
    requires StatesCounted(a) && a.numStates > 0
    ensures Evaluate(a, a) == Report(NaicsExact, StatesAll, PoisExact)
  {
    assert a.states * a.states == a.states;
  }

  /** The example of a two-brand catalog: guessing a 2-state brand from the
      same industry group with fewer POIs against a 3-state answer. */
  lemma ExampleGuess()
    ensures var a := Brand("A", "722511", 300, {"CA", "TX", "NY"}, 3);
            var b := Brand("B", "722513", 280, {"CA", "TX"}, 2);
            Evaluate(b, a) == Report(NaicsSameGroup, StatesMajority, PoisTooLow)
  {
    var a := Brand("A", "722511", 300, {"CA", "TX", "NY"}, 3);
    var b := Brand("B", "722513", 280, {"CA", "TX"}, 2);
    assert b.states * a.states == {"CA", "TX"};
    assert IndustryGroup(b.naics) == "7225" == IndustryGroup(a.naics);
  }
}

=== FILE: ledger.dfy ===
/** The session ledger: the per-player state of one game and the guess step
    that extends it. */
module Ledger {
  import opened Wrappers
  import opened Catalog
  import opened Evaluator
  import opened Summary

  /** Number of guesses a game allows. */
  const MaxGuesses: nat := 6

  /** One row of each of the three feedback columns of the guess table: the
      guessed brand's value and the signal it earned. */
  datatype NaicsEntry = NaicsEntry(code: string, feedback: NaicsFeedback)
  datatype StatesEntry = StatesEntry(states: set<string>, feedback: StatesFeedback)
  datatype PoisEntry = PoisEntry(pois: int, feedback: PoisFeedback)

  /** A game in progress: the answer's catalog index, the guessed names, the
      three feedback columns, the guess count and the summary text. */
  datatype Session = Session(
    answerIdx: nat,
    guesses: seq<string>,
    naicsLog: seq<NaicsEntry>,
    statesLog: seq<StatesEntry>,
    poisLog: seq<PoisEntry>,
    numGuesses: nat,
    summary: string)

  /** What a guess step announces. */
  datatype Outcome = Won(attempts: nat) | Lost | InProgress

  /** The signals recorded in the three feedback columns, oldest first. */
  function Reports(n: seq<NaicsEntry>, st: seq<StatesEntry>, p: seq<PoisEntry>): (rs: seq<Report>)
    requires |st| == |n| && |p| == |n|
    ensures |rs| == |n|
  {
    if |n| == 0 then []
    else
      var k := |n| - 1;
      Reports(n[..k], st[..k], p[..k]) + [Report(n[k].feedback, st[k].feedback, p[k].feedback)]
  }

  /** The ledger invariant: the count stays within the limit, every column
      has one row per guess, and the summary is the header followed by one
      line per recorded guess. */
  predicate Valid(s: Session) {
    && s.numGuesses <= MaxGuesses
    && |s.guesses| == s.numGuesses
    && |s.naicsLog| == s.numGuesses
    && |s.statesLog| == s.numGuesses
    && |s.poisLog| == s.numGuesses
    && s.summary == Header(s.answerIdx) + Body(Reports(s.naicsLog, s.statesLog, s.poisLog))
  }

  /** A fresh game for the puzzle with answer index `idx`. */
  function Init(idx: nat): (s: Session)
    ensures s.answerIdx == idx && s.numGuesses == 0
    ensures s.guesses == [] && s.naicsLog == [] && s.statesLog == [] && s.poisLog == []
    ensures DecodeHeader(s.summary) == Some(idx)
    ensures Valid(s)
  {
    DecodeHeaderRoundTrip(idx);
    Session(idx, [], [], [], [], 0, Header(idx))
  }

  /** The announcement after a guess: a win when the guessed name is the
      answer's (checked first), otherwise a loss once the count reaches the
      limit, otherwise nothing. */
  function Announce(guessName: string, answerName: string, count: nat): (o: Outcome)
    ensures o.Won? <==> guessName == answerName
    ensures o.Won? ==> o.attempts == count
    ensures o == Lost <==> guessName != answerName && count >= MaxGuesses
    ensures o == InProgress <==> guessName != answerName && count < MaxGuesses
  {
    if guessName == answerName then Won(count)
    else if count >= MaxGuesses then Lost
    else InProgress
  }

  /** One press of the guess button with `guess` selected, against `answer`.
      The only guard is the guess count; a won game accepts further guesses. */
  function Step(s: Session, answer: Brand, guess: Brand): (r: (Session, Outcome))
    requires s.numGuesses < MaxGuesses
    requires answer.numStates > 0
    ensures var (s', o) := r;
            && s'.answerIdx == s.answerIdx
            && s'.numGuesses == s.numGuesses + 1
            && s'.guesses == s.guesses + [guess.name]
            && s'.naicsLog == s.naicsLog + [NaicsEntry(guess.naics, CheckNaics(guess, answer))]
            && s'.statesLog == s.statesLog + [StatesEntry(guess.states, CheckStates(guess, answer))]
            && s'.poisLog == s.poisLog + [PoisEntry(guess.pois, CheckNumPois(guess, answer))]
            && s'.summary == s.summary + Line(Evaluate(guess, answer))
    ensures r.1.Won? <==> guess.name == answer.name
    ensures r.1.Won? ==> r.1.attempts == s.numGuesses + 1
    ensures r.1 == Announce(guess.name, answer.name, s.numGuesses + 1)
    ensures r.1 == Lost <==> guess.name != answer.name && s.numGuesses + 1 == MaxGuesses
  {
    var report := Evaluate(guess, answer);
    var line := Line(report);
    var count := s.numGuesses + 1;
    var s' := s.(
      guesses := s.guesses + [guess.name],
      naicsLog := s.naicsLog + [NaicsEntry(guess.naics, report.naics)],
      statesLog := s.statesLog + [StatesEntry(guess.states, report.states)],
      poisLog := s.poisLog + [PoisEntry(guess.pois, report.pois)],
      numGuesses := count,
      summary := s.summary + line);
    (s', Announce(guess.name, answer.name, count))
  }

  /** A guess step adds exactly one summary line, after the existing text,
      and that line reads back as the guess's three signals. */
  lemma StepAddsOneLine(s: Session, answer: Brand, guess: Brand)
    requires s.numGuesses < MaxGuesses && answer.numStates > 0
    ensures var s' := Step(s, answer, guess).0;
            && |s'.summary| > |s.summary|
            && s'.summary[..|s.summary|] == s.summary
            && DecodeLine(s'.summary[|s.summary|..]) == Some(Evaluate(guess, answer))
            && multiset(s'.summary)['\n'] == multiset(s.summary)['\n'] + 1
  {
    var s' := Step(s, answer, guess).0;
    var line := Line(Evaluate(guess, answer));
    DecodeLineRoundTrip(Evaluate(guess, answer));
    LineHasOneNewline(Evaluate(guess, answer));
    assert s'.summary[|s.summary|..] == line;
    assert multiset(s'.summary) == multiset(s.summary) + multiset(line);
  }

  /** A guess step keeps the ledger invariant. */
  lemma StepKeepsValid(s: Session, answer: Brand, guess: Brand)
    requires Valid(s) && s.numGuesses < MaxGuesses && answer.numStates > 0
    ensures Valid(Step(s, answer, guess).0)
  {
    var s' := Step(s, answer, guess).0;
    var report := Evaluate(guess, answer);
    var rs := Reports(s.naicsLog, s.statesLog, s.poisLog);
    ReportsSnoc(s.naicsLog, s.statesLog, s.poisLog,
      NaicsEntry(guess.naics, report.naics), StatesEntry(guess.states, report.states),
      PoisEntry(guess.pois, report.pois));
    assert Reports(s'.naicsLog, s'.statesLog, s'.poisLog) == rs + [report];
    SummarySnoc(Header(s.answerIdx), rs, report);
    assert s'.answerIdx == s.answerIdx;
  }

  lemma ReportsSnoc(n: seq<NaicsEntry>, st: seq<StatesEntry>, p: seq<PoisEntry>,
                    a: NaicsEntry, b: StatesEntry, c: PoisEntry)
    requires |st| == |n| && |p| == |n|
    ensures Reports(n + [a], st + [b], p + [c]) ==
            Reports(n, st, p) + [Report(a.feedback, b.feedback, c.feedback)]
  {
    assert (n + [a])[..|n|] == n;
    assert (st + [b])[..|n|] == st;
    assert (p + [c])[..|n|] == p;
  }

  /** Appending a report to the ledger appends its line to the summary. */
  lemma SummarySnoc(h: string, rs: seq<Report>, r: Report)
    ensures h + Body(rs + [r]) == (h + Body(rs)) + Line(r)
  {
    assert (rs + [r])[..|rs|] == rs;
  }

  /** In a valid session the summary has one line per guess plus the header. */
  lemma SummaryLineCount(s: Session)
    requires Valid(s)
    ensures multiset(s.summary)['\n'] == s.numGuesses + 1
  {
    HeaderHasOneNewline(s.answerIdx);
    BodyLineCount(Reports(s.naicsLog, s.statesLog, s.poisLog));
  }

  /** The names of a sequence of picked brands. */
  function Names(picks: seq<Brand>): (ns: seq<string>)
    ensures |ns| == |picks|
  {
    if |picks| == 0 then [] else Names(picks[..|picks| - 1]) + [picks[|picks| - 1].name]
  }

  /** The announcements of a run of guesses starting at guess count `count`:
      each guess is announced with the count it brings the session to. */
  function Announcements(count: nat, answerName: string, picks: seq<Brand>): (os: seq<Outcome>)
    ensures |os| == |picks|
  {
    if |picks| == 0 then []
    else
      var k := |picks| - 1;
      Announcements(count, answerName, picks[..k]) + [Announce(picks[k].name, answerName, count + k + 1)]
  }

  /** A sequence of guess steps, all against the same answer; returns the
      final session and the announcement of each step. */
  function Play(s: Session, answer: Brand, picks: seq<Brand>): (r: (Session, seq<Outcome>))
    requires s.numGuesses + |picks| <= MaxGuesses
    requires answer.numStates > 0
    ensures r.0.answerIdx == s.answerIdx
    ensures r.0.numGuesses == s.numGuesses + |picks|
    ensures r.0.guesses == s.guesses + Names(picks)
    ensures r.1 == Announcements(s.numGuesses, answer.name, picks)
    ensures Valid(s) ==> Valid(r.0)
  {
    if |picks| == 0 then (s, [])
    else
      var k := |picks| - 1;
      var prefix := picks[..k];
      var rk := Play(s, answer, prefix);
      var step := Step(rk.0, answer, picks[k]);
      assert step.1 == Announce(picks[k].name, answer.name, s.numGuesses + k + 1);
      assert Valid(rk.0) ==> Valid(step.0) by {
        if Valid(rk.0) { StepKeepsValid(rk.0, answer, picks[k]); }
      }
      (step.0, rk.1 + [step.1])
  }

  /** Each announcement of a run: a win exactly for the picks naming the
      answer, and for the others a loss exactly once the count reaches the
      limit. */
  lemma {:induction false} AnnouncementsOutcomes(count: nat, answerName: string, picks: seq<Brand>)
    ensures var os := Announcements(count, answerName, picks);
            forall i :: 0 <= i < |picks| ==>
              && (os[i].Won? <==> picks[i].name == answerName)
              && (os[i] == Lost <==> picks[i].name != answerName && count + i + 1 >= MaxGuesses)
  {
    if |picks| > 0 {
      var k := |picks| - 1;
      AnnouncementsOutcomes(count, answerName, picks[..k]);
      var os := Announcements(count, answerName, picks);
      var prev := Announcements(count, answerName, picks[..k]);
      forall i | 0 <= i < |picks|
        ensures os[i].Won? <==> picks[i].name == answerName
        ensures os[i] == Lost <==> picks[i].name != answerName && count + i + 1 >= MaxGuesses
      {
        if i < k {
          assert picks[..k][i] == picks[i];
          assert os[i] == prev[i];
        }
      }
    }
  }

  /** Each announcement of a run of guesses: a win exactly for the picks
      naming the answer, and for the others a loss exactly at the guess that
      reaches the limit. */
  lemma PlayOutcomes(s: Session, answer: Brand, picks: seq<Brand>)
    requires s.numGuesses + |picks| <= MaxGuesses
    requires answer.numStates > 0
    ensures var os := Play(s, answer, picks).1;
            forall i :: 0 <= i < |picks| ==>
              && (os[i].Won? <==> picks[i].name == answer.name)
              && (os[i] == Lost <==> picks[i].name != answer.name && s.numGuesses + i + 1 == MaxGuesses)
  {
    AnnouncementsOutcomes(s.numGuesses, answer.name, picks);
  }

  /** Six guesses that all miss the answer: the first five announce nothing
      and the sixth a loss. */
  lemma SixMissesLose(idx: nat, answer: Brand, picks: seq<Brand>)
    requires answer.numStates > 0 && |picks| == MaxGuesses
    requires forall i :: 0 <= i < |picks| ==> picks[i].name != answer.name
    ensures var r := Play(Init(idx), answer, picks);
            && r.0.numGuesses == MaxGuesses
            && Valid(r.0)
            && (forall i :: 0 <= i < MaxGuesses - 1 ==> r.1[i] == InProgress)
            && r.1[MaxGuesses - 1] == Lost
  {
    var s0 := Init(idx);
    MissesAnnounced(0, answer.name, picks);
    assert Play(s0, answer, picks).1 == Announcements(0, answer.name, picks);
  }

  /** A run of misses that ends at the limit announces nothing until its last
      guess, which is a loss. */
  lemma MissesAnnounced(count: nat, answerName: string, picks: seq<Brand>)
    requires |picks| > 0 && count + |picks| == MaxGuesses
    requires forall i :: 0 <= i < |picks| ==> picks[i].name != answerName
    ensures var os := Announcements(count, answerName, picks);
            && (forall i :: 0 <= i < |picks| - 1 ==> os[i] == InProgress)
            && os[|picks| - 1] == Lost
  {
    AnnouncementsOutcomes(count, answerName, picks);
  }

  /** Guessing the answer with the last allowed guess is a win, not a loss. */
  lemma WinOnLastGuess(s: Session, answer: Brand)
    requires s.numGuesses == MaxGuesses - 1 && answer.numStates > 0
    ensures Step(s, answer, answer).1 == Won(MaxGuesses)
  {
  }

  /** Nothing ends the game on a win: a won session with guesses left still
      takes another guess, which counts as an attempt. */
  lemma GuessAfterWin(s: Session, answer: Brand, next: Brand)
    requires s.numGuesses + 2 <= MaxGuesses && answer.numStates > 0
    ensures var (s1, o1) := Step(s, answer, answer);
            && o1.Won?
            && s1.numGuesses < MaxGuesses
            && Step(s1, answer, next).0.numGuesses == s.numGuesses + 2
  {
  }

  /** Why a guess was refused. */
  datatype GuessError = GuessLimitReached | UnknownBrand

  /** Submitting a guess by brand name: refused once the limit is reached
      (the guess button's disabled flag) or when no catalog row has the name;
      otherwise the first row with that name is evaluated against the
      answer row. */
  function Submit(s: Session, catalog: seq<Brand>, name: string): (r: Result<(Session, Outcome), GuessError>)
    requires s.answerIdx < |catalog| && catalog[s.answerIdx].numStates > 0
    ensures r == Err(GuessLimitReached) <==> s.numGuesses >= MaxGuesses
    ensures r == Err(UnknownBrand) <==>
              s.numGuesses < MaxGuesses && forall j :: 0 <= j < |catalog| ==> catalog[j].name != name
    ensures r.Ok? ==> r.value.0.numGuesses == s.numGuesses + 1 && r.value.0.guesses == s.guesses + [name]
    ensures r.Ok? ==> (r.value.1.Won? <==> name == catalog[s.answerIdx].name)
    ensures r.Ok? ==> (r.value.1 == Lost <==>
              name != catalog[s.answerIdx].name && s.numGuesses + 1 == MaxGuesses)
    ensures r.Ok? && Valid(s) ==> Valid(r.value.0)
    ensures r.Ok? ==>
              && FirstNamed(catalog, name).Some?
              && r.value.0.summary == s.summary +
                   Line(Evaluate(catalog[FirstNamed(catalog, name).value], catalog[s.answerIdx]))
    ensures r.Ok? ==>
              var g, a := catalog[FirstNamed(catalog, name).value], catalog[s.answerIdx];
              && r.value.0.answerIdx == s.answerIdx
              && r.value.0.naicsLog == s.naicsLog + [NaicsEntry(g.naics, CheckNaics(g, a))]
              && r.value.0.statesLog == s.statesLog + [StatesEntry(g.states, CheckStates(g, a))]
              && r.value.0.poisLog == s.poisLog + [PoisEntry(g.pois, CheckNumPois(g, a))]
  {
    if s.numGuesses >= MaxGuesses then Err(GuessLimitReached)
    else match Lookup(catalog, name)
      case None => Err(UnknownBrand)
      case Some(guess) =>
        assert Valid(s) ==> Valid(Step(s, catalog[s.answerIdx], guess).0) by {
          if Valid(s) { StepKeepsValid(s, catalog[s.answerIdx], guess); }
        }
        Ok(Step(s, catalog[s.answerIdx], guess))
  }
}

=== FILE: reals.dfy ===
/** Facts about multiplying real numbers by a positive factor. */
module Reals {

  /** Multiplying both sides by a positive number keeps a comparison. */
  lemma ScaleCompare(x: real, y: real, m: real)
    requires m > 0.0
    ensures x == y <==> x * m == y * m
    ensures x > y <==> x * m > y * m
  {
    if x > y {
      PositiveProduct(x - y, m);
    } else if x < y {
      PositiveProduct(y - x, m);
    }
  }

  /** The product of two positive numbers is positive. */
  lemma PositiveProduct(a: real, b: real)
    requires a > 0.0 && b > 0.0
    ensures a * b > 0.0
  {
  }

  /** A non-negative number times a positive one is non-negative. */
  lemma NonNegativeProduct(a: real, b: real)
    requires a >= 0.0 && b > 0.0
    ensures a * b >= 0.0
  {
  }
}

=== FILE: schedule.dfy ===
/** The daily selector: which catalog row is the answer on a given day. */
module Schedule {

  /** Catalog index of the answer for each day, counted from Monday
      2022-03-28, one line per week. Monday to Friday get fresh answers;
      Saturday and Sunday repeat Friday's. */
  const AnswerOrder: seq<nat> :=
    [18, 42, 0, 51, 6, 6, 6] +
    [58, 64, 43, 25, 12, 12, 12] +
    [11, 41, 29, 5, 23, 23, 23] +
    [8, 2, 19, 38, 48, 48, 48] +
    [10, 60, 54, 47, 3, 3, 3] +
    [39, 9, 45, 31, 40, 40, 40] +
    [36, 30, 63, 57, 37, 37, 37] +
    [1, 21, 28, 35, 16, 16, 16] +
    [32, 34, 15, 26, 52, 52, 52] +
    [27, 14, 33, 24, 13, 13, 13] +
    [7, 46, 4, 53, 55, 55, 55] +
    [49, 61, 50, 56, 22, 22, 22] +
    [62, 17, 20, 59, 44, 44, 44]

  /** Number of days the schedule covers (13 weeks). */
  const ScheduleDays: nat := 91

  /** Number of distinct answers the schedule draws from: catalog rows
      0 through 64. */
  const ScheduledBrands: nat := 65

  /** Days 0-4 of each week (Monday to Friday). */
  predicate IsWeekday(day: nat) {
    day % 7 < 5
  }

  /** The table's length, and every entry names one of the scheduled rows. */
  lemma ScheduleRange()
    ensures |AnswerOrder| == ScheduleDays
    ensures forall d :: 0 <= d < |AnswerOrder| ==> AnswerOrder[d] < ScheduledBrands
  {
    forall d | 0 <= d < |AnswerOrder|
      ensures AnswerOrder[d] < ScheduledBrands
    {
      // One case per week, so that each case reads a single row of the table.
      if d < 7 {
      } else if d < 14 {
      } else if d < 21 {
      } else if d < 28 {
      } else if d < 35 {
      } else if d < 42 {
      } else if d < 49 {
      } else if d < 56 {
      } else if d < 63 {
      } else if d < 70 {
      } else if d < 77 {
      } else if d < 84 {
      } else if d < 91 {
      }
    }
  }

  /** Saturday and Sunday of week `w` repeat that week's Friday answer. */
  lemma WeekendRepeat(w: nat)
    requires w < ScheduleDays / 7
    ensures AnswerOrder[7 * w + 5] == AnswerOrder[7 * w + 4]
    ensures AnswerOrder[7 * w + 6] == AnswerOrder[7 * w + 4]
  {
    // One case per week: each case compares three constant positions.
    if w == 0 {
    } else if w == 1 {
    } else if w == 2 {
    } else if w == 3 {
    } else if w == 4 {
    } else if w == 5 {
    } else if w == 6 {
    } else if w == 7 {
    } else if w == 8 {
    } else if w == 9 {
    } else if w == 10 {
    } else if w == 11 {
    } else if w == 12 {
    }
  }

  /** The non-random answer index for `day` days after the first puzzle.
      Days past the end of the table have no answer. */
  function DailyIndex(day: nat): (idx: nat)
    requires day < |AnswerOrder|
    ensures idx == AnswerOrder[day]
    ensures idx < ScheduledBrands
  {
    ScheduleRange();
    AnswerOrder[day]
  }

  /** Every one of the scheduled rows is the answer on some weekday. */
  lemma EveryBrandScheduled(k: nat)
    requires k < ScheduledBrands
    ensures exists d :: 0 <= d < ScheduleDays && IsWeekday(d) && DailyIndex(d) == k
  {
    // For each row, the first weekday on which it is the answer.
    if k == 0 {
      assert DailyIndex(2) == 0;
    } else if k == 1 {
      assert DailyIndex(49) == 1;
    } else if k == 2 {
      assert DailyIndex(22) == 2;
    } else if k == 3 {
      assert DailyIndex(32) == 3;
    } else if k == 4 {
      assert DailyIndex(72) == 4;
    } else if k == 5 {
      assert DailyIndex(17) == 5;
    } else if k == 6 {
      assert DailyIndex(4) == 6;
    } else if k == 7 {
      assert DailyIndex(70) == 7;
    } else if k == 8 {
      assert DailyIndex(21) == 8;
    } else if k == 9 {
      assert DailyIndex(36) == 9;
    } else if k == 10 {
      assert DailyIndex(28) == 10;
    } else if k == 11 {
      assert DailyIndex(14) == 11;
    } else if k == 12 {
      assert DailyIndex(11) == 12;
    } else if k == 13 {
      assert DailyIndex(67) == 13;
    } else if k == 14 {
      assert DailyIndex(64) == 14;
    } else if k == 15 {
      assert DailyIndex(58) == 15;
    } else if k == 16 {
      assert DailyIndex(53) == 16;
    } else if k == 17 {
      assert DailyIndex(85) == 17;
    } else if k == 18 {
      assert DailyIndex(0) == 18;
    } else if k == 19 {
      assert DailyIndex(23) == 19;
    } else if k == 20 {
      assert DailyIndex(86) == 20;
    } else if k == 21 {
      assert DailyIndex(50) == 21;
    } else if k == 22 {
      assert DailyIndex(81) == 22;
    } else if k == 23 {
      assert DailyIndex(18) == 23;
    } else if k == 24 {
      assert DailyIndex(66) == 24;
    } else if k == 25 {
      assert DailyIndex(10) == 25;
    } else if k == 26 {
      assert DailyIndex(59) == 26;
    } else if k == 27 {
      assert DailyIndex(63) == 27;
    } else if k == 28 {
      assert DailyIndex(51) == 28;
    } else if k == 29 {
      assert DailyIndex(16) == 29;
    } else if k == 30 {
      assert DailyIndex(43) == 30;
    } else if k == 31 {
      assert DailyIndex(38) == 31;
    } else if k == 32 {
      assert DailyIndex(56) == 32;
    } else if k == 33 {
      assert DailyIndex(65) == 33;
    } else if k == 34 {
      assert DailyIndex(57) == 34;
    } else if k == 35 {
      assert DailyIndex(52) == 35;
    } else if k == 36 {
      assert DailyIndex(42) == 36;
    } else if k == 37 {
      assert DailyIndex(46) == 37;
    } else if k == 38 {
      assert DailyIndex(24) == 38;
    } else if k == 39 {
      assert DailyIndex(35) == 39;
    } else if k == 40 {
      assert DailyIndex(39) == 40;
    } else if k == 41 {
      assert DailyIndex(15) == 41;
    } else if k == 42 {
      assert DailyIndex(1) == 42;
    } else if k == 43 {
      assert DailyIndex(9) == 43;
    } else if k == 44 {
      assert DailyIndex(88) == 44;
    } else if k == 45 {
      assert DailyIndex(37) == 45;
    } else if k == 46 {
      assert DailyIndex(71) == 46;
    } else if k == 47 {
      assert DailyIndex(31) == 47;
    } else if k == 48 {
      assert DailyIndex(25) == 48;
    } else if k == 49 {
      assert DailyIndex(77) == 49;
    } else if k == 50 {
      assert DailyIndex(79) == 50;
    } else if k == 51 {
      assert DailyIndex(3) == 51;
    } else if k == 52 {
      assert DailyIndex(60) == 52;
    } else if k == 53 {
      assert DailyIndex(73) == 53;
    } else if k == 54 {
      assert DailyIndex(30) == 54;
    } else if k == 55 {
      assert DailyIndex(74) == 55;
    } else if k == 56 {
      assert DailyIndex(80) == 56;
    } else if k == 57 {
      assert DailyIndex(45) == 57;
    } else if k == 58 {
      assert DailyIndex(7) == 58;
    } else if k == 59 {
      assert DailyIndex(87) == 59;
    } else if k == 60 {
      assert DailyIndex(29) == 60;
    } else if k == 61 {
      assert DailyIndex(78) == 61;
    } else if k == 62 {
      assert DailyIndex(84) == 62;
    } else if k == 63 {
      assert DailyIndex(44) == 63;
    } else if k == 64 {
      assert DailyIndex(8) == 64;
    }
  }

  /** The schedule opens with the five hand-picked launch answers. */
  lemma LaunchWeek()
    ensures AnswerOrder[..5] == [18, 42, 0, 51, 6]
  {
  }
}

=== FILE: selector.dfy ===
/** Choosing the answer row when a session starts: the scheduled answer for
    the day, or a random row when the player asks for a random puzzle. */
module Selector {
  import opened Wrappers
  import opened Schedule
  import opened Reals

  /** How the answer is chosen: from the schedule, given the whole number of
      days elapsed since the first puzzle (negative before it), or from a
      random draw `u` in [0, 1). */
  datatype Mode = Daily(day: int) | Random(u: real)

  /** Python's list indexing: a negative position counts from the end, and a
      position outside [-|s|, |s|) raises IndexError (None here). */
  function PyIndex(s: seq<nat>, i: int): (r: Option<nat>)
    ensures r.Some? <==> -|s| <= i < |s|
    ensures 0 <= i < |s| ==> r == Some(s[i])
    ensures -|s| <= i < 0 ==> r == Some(s[|s| + i])
  {
    if 0 <= i < |s| then Some(s[i])
    else if -|s| <= i < 0 then Some(s[|s| + i])
    else None
  }

  /** Python's built-in `round` on a number: to the nearest integer, ties to
      the even neighbour. */
  function Round(x: real): (k: int)
    ensures (k as real) - 0.5 <= x <= (k as real) + 0.5
    ensures x == (k as real) - 0.5 || x == (k as real) + 0.5 ==> k % 2 == 0
  {
    var f := x.Floor;
    var frac := x - f as real;
    if frac < 0.5 then f
    else if frac > 0.5 then f + 1
    else if f % 2 == 0 then f
    else f + 1
  }

  /** The random-mode index as the source computes it: `u` times the catalog
      size, rounded. */
  function RandomIndexAsWritten(u: real, size: nat): (k: int)
    requires 0.0 <= u < 1.0
    ensures 0 <= k <= size
  {
    RoundScaled(u, size);
    Round(u * (size as real))
  }

  /** Rounding a draw from [0, 1) times a size stays in [0, size]. */
  lemma RoundScaled(u: real, size: nat)
    requires 0.0 <= u < 1.0
    ensures 0 <= Round(u * (size as real)) <= size
  {
    UnitScale(u, size as real);
    RoundWithin(u * (size as real), size);
  }

  /** Rounding a number in [0, m], m whole, stays in [0, m]. */
  lemma RoundWithin(x: real, m: nat)
    requires 0.0 <= x <= m as real
    ensures 0 <= Round(x) <= m
  {
    var k := Round(x);
    assert (k as real) <= (m as real) + 0.5;
    assert (k as real) < ((m + 1) as real);
    assert (k as real) >= -0.5;
    assert (k as real) > ((-1) as real);
  }

  /** A draw just below 1 rounds up to the catalog size itself, one past the
      last row, so the row lookup that follows fails. */
  lemma RandomIndexCanOverflow()
    ensures RandomIndexAsWritten(0.999, 65) == 65
  {
    assert 0.999 * (65 as real) == 64.935;
    assert (64.935).Floor == 64;
  }

  /** The random-mode index as intended: `u` times the size, rounded down,
      which is always a row of a non-empty catalog. */
  function RandomIndex(u: real, size: nat): (k: nat)
    requires 0.0 <= u < 1.0
    ensures size > 0 ==> k < size
    ensures size == 0 ==> k == 0
  {
    var x := u * (size as real);
    UnitScale(u, size as real);
    x.Floor
  }

  /** Scaling by a draw from [0, 1) stays in [0, m), or is 0 when m is 0. */
  lemma UnitScale(u: real, m: real)
    requires 0.0 <= u < 1.0 && m >= 0.0
    ensures 0.0 <= u * m <= m
    ensures m > 0.0 ==> u * m < m
  {
    if m > 0.0 {
      NonNegativeProduct(u, m);
      PositiveProduct(1.0 - u, m);
    }
  }

  /** The answer row for a new session, or None when the source would fail:
      a day outside the table (before its start by more than its length, or
      after its end), a scheduled index that is not a row of the catalog
      (the catalog row lookup fails), or a random draw against an empty
      catalog. The random branch uses the corrected index `RandomIndex`. */
  function SelectAnswer(mode: Mode, size: nat): (r: Option<nat>)
    requires mode.Random? ==> 0.0 <= mode.u < 1.0
    ensures r.Some? ==> r.value < size
    ensures mode.Daily? && !(-(ScheduleDays as int) <= mode.day < ScheduleDays) ==> r.None?
    ensures mode.Daily? && 0 <= mode.day < ScheduleDays ==>
              (r.Some? <==> DailyIndex(mode.day) < size)
    ensures mode.Daily? && 0 <= mode.day < ScheduleDays && DailyIndex(mode.day) < size ==>
              r == Some(DailyIndex(mode.day))
    ensures mode.Daily? && size >= ScheduledBrands ==>
              (r.Some? <==> -(ScheduleDays as int) <= mode.day < ScheduleDays)
    ensures mode.Daily? && r.Some? ==> r.value < ScheduledBrands
    ensures mode.Random? ==> (r.Some? <==> size > 0)
  {
    ScheduleRange();
    match mode
    case Daily(day) =>
      var idx := PyIndex(AnswerOrder, day);
      if idx.Some? && idx.value < size then idx else None
    case Random(u) => if size == 0 then None else Some(RandomIndex(u, size))
  }

  /** A day before the first puzzle, within one table length of it, takes the
      answer of the day one table length later. */
  lemma EarlyDayWrapsAround(day: int, size: nat)
    requires -(ScheduleDays as int) <= day < 0
    requires size >= ScheduledBrands
    ensures SelectAnswer(Daily(day), size) == Some(DailyIndex(day + ScheduleDays))
  {
    ScheduleRange();
  }
}

=== FILE: summary.dfy ===
/** The shareable summary text: a puzzle header line followed by one line of
    three feedback glyphs per guess. */
module Summary {
  import opened Wrappers
  import opened Decimal
  import opened Evaluator

  const Green: string := "\U{1F7E9}"
  const Yellow: string := "\U{1F7E8}"
  const White: string := "\U{2B1C}"
  /** Down arrow followed by the emoji variation selector. */
  const Down: string := "\U{2B07}\U{FE0F}"
  /** Up arrow followed by the emoji variation selector. */
  const Up: string := "\U{2B06}\U{FE0F}"

  const Title: string := "SAFEGRAPHLE #"

  function NaicsGlyph(f: NaicsFeedback): (g: string)
    ensures |g| == 1 && g[0] != '\n'
  {
    match f
    case NaicsExact => Green
    case NaicsSameGroup => Yellow
    case NaicsOff => White
  }

  function StatesGlyph(f: StatesFeedback): (g: string)
    ensures |g| == 1 && g[0] != '\n'
  {
    match f
    case StatesAll => Green
    case StatesMajority => Yellow
    case StatesOff => White
  }

  function PoisGlyph(f: PoisFeedback): (g: string)
    ensures 1 <= |g| <= 2 && '\n' !in g
  {
    match f
    case PoisExact => Green
    case PoisTooHigh => Down
    case PoisTooLow => Up
  }

  /** One summary line: NAICS, STATES and POIS glyphs, space separated. */
  function Line(r: Report): (l: string)
    ensures 6 <= |l| <= 7 && l[1] == ' ' && l[3] == ' ' && l[|l| - 1] == '\n'
  {
    NaicsGlyph(r.naics) + " " + StatesGlyph(r.states) + " " + PoisGlyph(r.pois) + "\n"
  }

  /** Every summary line ends in its one and only newline. */
  lemma LineHasOneNewline(r: Report)
    ensures Line(r)[|Line(r)| - 1] == '\n'
    ensures multiset(Line(r))['\n'] == 1
  {
    var n, s, p := NaicsGlyph(r.naics), StatesGlyph(r.states), PoisGlyph(r.pois);
    OneNewline(n + " " + s + " " + p);
  }

  /** A text without newlines followed by one newline holds one newline. */
  lemma OneNewline(s: string)
    requires '\n' !in s
    ensures multiset(s + "\n")['\n'] == 1
  {
    assert multiset(s + "\n") == multiset(s) + multiset{'\n'};
  }

  /** The first line of every summary, naming the puzzle by its answer index. */
  function Header(idx: nat): (h: string)
    ensures |h| > |Title| && h[..|Title|] == Title && h[|h| - 1] == '\n'
  {
    HeaderFields(Title, FromNat(idx));
    Title + FromNat(idx) + "\n"
  }

  /** The header is a single line. */
  lemma HeaderHasOneNewline(idx: nat)
    ensures multiset(Header(idx))['\n'] == 1
  {
    assert '\n' !in Title;
    NumeralHasNoNewline(FromNat(idx));
    OneNewline(Title + FromNat(idx));
  }

  lemma NumeralHasNoNewline(d: string)
    requires AllDigits(d)
    ensures '\n' !in d
  {
    assert forall i :: 0 <= i < |d| ==> d[i] != '\n';
  }

  lemma HeaderFields(t: string, d: string)
    ensures var h := t + d + "\n";
            && |h| == |t| + |d| + 1
            && h[..|t|] == t
            && h[|t|..|h| - 1] == d
            && h[|h| - 1] == '\n'
  {
  }

  /** The summary lines of a sequence of guesses, oldest first. */
  function Body(reports: seq<Report>): (b: string)
    ensures |b| == 0 <==> |reports| == 0
    ensures |reports| > 0 ==> b[|b| - 1] == '\n'
  {
    if |reports| == 0 then ""
    else Body(reports[..|reports| - 1]) + Line(reports[|reports| - 1])
  }

  /** The body holds one line per report. */
  lemma {:induction false} BodyLineCount(reports: seq<Report>)
    ensures multiset(Body(reports))['\n'] == |reports|
  {
    if |reports| > 0 {
      var k := |reports| - 1;
      BodyLineCount(reports[..k]);
      LineHasOneNewline(reports[k]);
    }
  }

  // ---------------------------------------------------------------------
  // Reading the summary back.
  // ---------------------------------------------------------------------

  function NaicsOfGlyph(s: string): Option<NaicsFeedback> {
    if s == Green then Some(NaicsExact)
    else if s == Yellow then Some(NaicsSameGroup)
    else if s == White then Some(NaicsOff)
    else None
  }

  function StatesOfGlyph(s: string): Option<StatesFeedback> {
    if s == Green then Some(StatesAll)
    else if s == Yellow then Some(StatesMajority)
    else if s == White then Some(StatesOff)
    else None
  }

  function PoisOfGlyph(s: string): Option<PoisFeedback> {
    if s == Green then Some(PoisExact)
    else if s == Down then Some(PoisTooHigh)
    else if s == Up then Some(PoisTooLow)
    else None
  }

  /** Parse one summary line back into the three signals. */
  function DecodeLine(line: string): Option<Report> {
    if |line| < 6 || line[1] != ' ' || line[3] != ' ' || line[|line| - 1] != '\n' then None
    else
      match (NaicsOfGlyph(line[..1]), StatesOfGlyph(line[2..3]), PoisOfGlyph(line[4..|line| - 1]))
      case (Some(n), Some(s), Some(p)) => Some(Report(n, s, p))
      case _ => None
  }

  lemma NaicsGlyphRoundTrip(f: NaicsFeedback)
    ensures NaicsOfGlyph(NaicsGlyph(f)) == Some(f)
  {
  }

  lemma StatesGlyphRoundTrip(f: StatesFeedback)
    ensures StatesOfGlyph(StatesGlyph(f)) == Some(f)
  {
  }

  lemma PoisGlyphRoundTrip(f: PoisFeedback)
    ensures PoisOfGlyph(PoisGlyph(f)) == Some(f)
  {
  }

  lemma LineFields(n: string, s: string, p: string)
    requires |n| == 1 && |s| == 1 && |p| >= 1
    ensures var line := n + " " + s + " " + p + "\n";
            && |line| >= 6 && line[1] == ' ' && line[3] == ' ' && line[|line| - 1] == '\n'
            && line[..1] == n && line[2..3] == s && line[4..|line| - 1] == p
  {
  }

  /** A summary line determines the three signals it was written from. */
  lemma DecodeLineRoundTrip(r: Report)
    ensures DecodeLine(Line(r)) == Some(r)
  {
    LineFields(NaicsGlyph(r.naics), StatesGlyph(r.states), PoisGlyph(r.pois));
    NaicsGlyphRoundTrip(r.naics);
    StatesGlyphRoundTrip(r.states);
    PoisGlyphRoundTrip(r.pois);
  }

  /** Parse a header line back into the puzzle index. */
  function DecodeHeader(h: string): Option<nat> {
    if |h| < |Title| + 2 || h[..|Title|] != Title || h[|h| - 1] != '\n' then None
    else
      var digits := h[|Title|..|h| - 1];
      if AllDigits(digits) then Some(ToNat(digits)) else None
  }

  /** The header names the puzzle it was written for. */
  lemma DecodeHeaderRoundTrip(idx: nat)
    ensures DecodeHeader(Header(idx)) == Some(idx)
  {
    HeaderFields(Title, FromNat(idx));
    ToNatFromNat(idx);
  }
}

=== FILE: wrappers.dfy ===
/** Failure-carrying result types shared by the other modules. */
module Wrappers {

  /** A value that may be missing, e.g. a brand name with no catalog row. */
  datatype Option<+T> = None | Some(value: T)

  /** The outcome of an operation that can be refused with an error value. */
  datatype Result<+R, +E> = Ok(value: R) | Err(error: E)
}
